=== FILE: README.md ===
# Herman secure delete, modelled in Dafny

Herman is a Windows console program that destroys every file under a folder.
It asks for a folder path and strips any `"` from it. It then walks the
folder tree and starts one thread per file. Each thread reads the file, runs
33 overwrite passes over the bytes, writes them back, and renames the file to
an MD5 fingerprint of its path and new content.

The model covers that pipeline, module by module:

- `Passes`: the 33 passes over the file buffer. Passes 1-4 fill it with
  `rand() % 256`; passes 5-33 XOR it with bytes parsed base 2 from a 33-entry
  pattern table. The passes run in place on an `array<bv8>`.
- `Fingerprint`: `calculateMD5`. It assembles the hash input (path bytes,
  then 1024-byte chunks of content), covers every failure path, and renders
  the digest as lowercase hex. A decoder shows the rendering is one-to-one.
- `Paths`: the file name and the new path built with `find_last_of("\\/")`.
- `Sanitize`: the quote-stripping loop of `main`.
- `Walk`: `processDirectory`. It walks a directory tree and appends tasks to
  the `threads` vector, modelled as the `Dispatcher` class.
- `Worker`: one `GutmannEncrypt` call over a disk modelled as a map from
  paths to contents.

Things outside the program become parameters:

- The `rand()` stream is a function from call number to value.
- The CryptoAPI is the MD5 function plus the set of calls that fail.
- The folder tree is a datatype.
- The disk is a map.

Two properties stand out:

- The 29 pattern bytes the XOR passes use fold to `0x00`. The XOR stage
  therefore cancels out, and the final content is exactly the fourth random
  pass.
- The chunk loop stops at the first short read. A trailing partial chunk is
  never hashed, and a file under 1024 bytes is fingerprinted by its path
  alone.

Some behaviours of the code are easy to miss, and the model keeps them:

- The chunk loop hashes only whole 1024-byte chunks. The final partial chunk
  is not hashed (`Fingerprint.TrailingBytesIgnored`).
- The result of `rename` is ignored, an empty fingerprint is never checked
  for, and the success block is always printed once the file has opened
  (`Worker.AlwaysReportsSuccess`, `Worker.CollisionKeepsWipedFile`).
- The index `i` is passed to `processDirectory` by value, so a
  subdirectory's files are numbered from the parent's current index and
  numbers repeat across directories (`Walk.EntryIndex`,
  `Walk.IndicesRepeatAcrossDirectories`).
- The final content is exactly the last random pass
  (`Passes.FinalContentIsLastDraw`). It differs from the original only as far
  as those draws do.

## Model

| member | source | states |
|---|---|---|
| Common.Bytes | Herman/Herman.cpp:43 | the path is hashed as one byte per character of the string, `filepath.length()` bytes in all |
| Passes.ParseBinary | Herman/Herman.cpp:125 | `strtol(pattern, nullptr, 2)` reads the leading run of base-2 digits; the value is below 2 to the power of that run's length |
| Passes.PatternByteIsLowByte | Herman/Herman.cpp:125 | the byte XORed into a `char` is the parsed value modulo 256 |
| Passes.FitsInByte | Herman/Herman.cpp:114-125 | an entry of at most eight characters parses below 256, so the XOR uses the whole parsed value |
| Passes.PatternAt4 | Herman/Herman.cpp:115 | table entry 4 has eight digits and parses to 0x24; used by pass 5 |
| Passes.PatternAt5 | Herman/Herman.cpp:116 | table entry 5 has eight digits and parses to 0x00; used by pass 6 |
| Passes.PatternAt6 | Herman/Herman.cpp:116 | table entry 6 has eight digits and parses to 0x11; used by pass 7 |
| Passes.PatternAt7 | Herman/Herman.cpp:116 | table entry 7 has eight digits and parses to 0x22; used by pass 8 |
| Passes.PatternAt8 | Herman/Herman.cpp:116 | table entry 8 has eight digits and parses to 0x33; used by pass 9 |
| Passes.PatternAt9 | Herman/Herman.cpp:116 | table entry 9 has eight digits and parses to 0x44; used by pass 10 |
| Passes.PatternAt10 | Herman/Herman.cpp:117 | table entry 10 has eight digits and parses to 0x55; used by pass 11 |
| Passes.PatternAt11 | Herman/Herman.cpp:117 | table entry 11 has eight digits and parses to 0x66; used by pass 12 |
| Passes.PatternAt12 | Herman/Herman.cpp:117 | table entry 12 has eight digits and parses to 0x77; used by pass 13 |
| Passes.PatternAt13 | Herman/Herman.cpp:117 | table entry 13 has eight digits and parses to 0x88; used by pass 14 |
| Passes.PatternAt14 | Herman/Herman.cpp:117 | table entry 14 has eight digits and parses to 0x99; used by pass 15 |
| Passes.PatternAt15 | Herman/Herman.cpp:118 | table entry 15 has eight digits and parses to 0xAA; used by pass 16 |
| Passes.PatternAt16 | Herman/Herman.cpp:118 | table entry 16 has eight digits and parses to 0xBB; used by pass 17 |
| Passes.PatternAt17 | Herman/Herman.cpp:118 | table entry 17 has eight digits and parses to 0xCC; used by pass 18 |
| Passes.PatternAt18 | Herman/Herman.cpp:118 | table entry 18 has eight digits and parses to 0xDD; used by pass 19 |
| Passes.PatternAt19 | Herman/Herman.cpp:118 | table entry 19 has eight digits and parses to 0xEE; used by pass 20 |
| Passes.PatternAt20 | Herman/Herman.cpp:119 | table entry 20 has eight digits and parses to 0xFF; used by pass 21 |
| Passes.PatternAt21 | Herman/Herman.cpp:119 | table entry 21 has eight digits and parses to 0x92; used by pass 22 |
| Passes.PatternAt22 | Herman/Herman.cpp:119 | table entry 22 has eight digits and parses to 0x49; used by pass 23 |
| Passes.PatternAt23 | Herman/Herman.cpp:119 | table entry 23 has eight digits and parses to 0x24; used by pass 24 |
| Passes.PatternAt24 | Herman/Herman.cpp:119 | table entry 24 has eight digits and parses to 0x6D; used by pass 25 |
| Passes.PatternAt25 | Herman/Herman.cpp:120 | table entry 25 has eight digits and parses to 0xB6; used by pass 26 |
| Passes.PatternAt26 | Herman/Herman.cpp:120 | table entry 26 has eight digits and parses to 0xDB; used by pass 27 |
| Passes.PatternAt27 | Herman/Herman.cpp:120 | table entry 27 has eight digits and parses to 0xFF; used by pass 28 |
| Passes.PatternAt28 | Herman/Herman.cpp:120 | table entry 28 has eight digits and parses to 0x92; used by pass 29 |
| Passes.PatternAt29 | Herman/Herman.cpp:120 | table entry 29 has eight digits and parses to 0x49; used by pass 30 |
| Passes.PatternAt30 | Herman/Herman.cpp:121 | table entry 30 has eight digits and parses to 0x24; used by pass 31 |
| Passes.PatternAt31 | Herman/Herman.cpp:121 | table entry 31 has eight digits and parses to 0x92; used by pass 32 |
| Passes.PatternAt32 | Herman/Herman.cpp:121 | table entry 32 has eight digits and parses to 0x49; used by pass 33 |
| Passes.AfterPasses | Herman/Herman.cpp:107-127 | the buffer after passes 1..p keeps the original length |
| Passes.RandomPass | Herman/Herman.cpp:108-110 | one random pass: byte i of the buffer becomes the `rand() % 256` of call `first + i`, for the whole buffer |
| Passes.XorPass | Herman/Herman.cpp:124-126 | one XOR pass: every byte is XORed with the pattern's byte, nothing else changes |
| Passes.GutmannPasses | Herman/Herman.cpp:100-127 | the buffer after all 33 passes, run in place, is the content the pass sequence defines for the original bytes; its length is unchanged |
| Passes.RunPasses | Herman/Herman.cpp:106-127 | the two pass loops, run in place with a given 33-entry table, leave the content the pass sequence defines for that table: four random passes on consecutive draws, then one XOR per entry 4..32 |
| Passes.RandomStageResult | Herman/Herman.cpp:107-111 | after pass 4, byte i is the `rand() % 256` of call `3n + i` (the last draw for that position), whatever the original content |
| Passes.ContentForgotten | Herman/Herman.cpp:107-127 | from pass 4 on, two buffers of the same length hold the same bytes: the original content has no influence |
| Passes.XorAllTwice | Herman/Herman.cpp:123-127 | two XOR passes in a row equal one XOR with the XOR of their patterns |
| Passes.XorStageNet | Herman/Herman.cpp:123-127 | passes 5..p together XOR every byte once with the fold of table entries 4..p-1, in table order |
| Passes.DeadEntries | Herman/Herman.cpp:114-127 | tables that agree on entries 4..32 give the same content after every pass: entries 0..3 are dead |
| Passes.XorStageCancels | Herman/Herman.cpp:114-127 | the fold of the 29 bytes of the pattern table that the XOR passes use (entries 4..32) is 0x00 |
| Passes.FinalContentIsLastDraw | Herman/Herman.cpp:104-127 | the content after all 33 passes is exactly the fourth random pass: byte i is the `rand() % 256` of call `3n + i` |
| Passes.SameDrawsSameContent | Herman/Herman.cpp:104-127 | two files of the same length wiped with the same draws (workers seeded in the same second) end with identical content, whatever they held before |
| Paths.FindLastSeparator | Herman/Herman.cpp:134 | `find_last_of("\\/")`: the index of the last `\` or `/`, with none after it; absent exactly when the path has no separator |
| Paths.FileName | Herman/Herman.cpp:134 | `substr(find_last_of("\\/") + 1)`: a suffix of the path with no separator in it; the whole path when there is none, since `npos + 1` wraps to 0 |
| Paths.Directory | Herman/Herman.cpp:139 | `substr(0, find_last_of("\\/"))`: a prefix of the path; the whole path when there is no separator (`npos` count clamped), else everything before the last separator, which is followed by the file name |
| Paths.NewFilePath | Herman/Herman.cpp:139 | the directory part, then `/`, then the fingerprint, and nothing else |
| Paths.SplitAtLastSeparator | Herman/Herman.cpp:134-139 | with a separator, the path is the directory part, that separator and the file name, and the file name has no separator |
| Paths.NoSeparator | Herman/Herman.cpp:134-139 | with no separator (npos), the file name is the whole path and the new path is `filepath + "/" + hash` |
| Paths.EmptyFingerprint | Herman/Herman.cpp:139 | an empty fingerprint gives a new path that ends in `/`, right after the directory part |
| Paths.RenameStaysInDirectory | Herman/Herman.cpp:134-140 | for a fingerprint without separators, the new path's file name is the fingerprint and its directory part is the old one |
| Paths.SeparatorSpellingsAgree | Herman/Herman.cpp:139-140 | the new path `dir/name` and the walk's spelling `dir\name` are different strings that Windows reads as the same path |
| Sanitize.StripQuotes | Herman/Herman.cpp:188-193 | the character loop of `main` keeps exactly the characters that are not `"` |
| Sanitize.StripConcat | Herman/Herman.cpp:188-193 | stripping works character by character: it distributes over concatenation, so the kept characters stay in order |
| Sanitize.StripOne | Herman/Herman.cpp:190-192 | a single character is kept exactly when it is not `"` |
| Sanitize.NoQuoteLeft | Herman/Herman.cpp:188-193 | the result has no `"`, and every other character occurs as often as in the input |
| Sanitize.NoQuoteUnchanged | Herman/Herman.cpp:188-193 | an input without `"` comes through unchanged |
| Sanitize.UnchangedIffNoQuote | Herman/Herman.cpp:188-193 | the input comes through unchanged if and only if it has no `"` |
| Sanitize.Idempotent | Herman/Herman.cpp:188-193 | stripping twice is stripping once |
| Fingerprint.Read | Herman/Herman.cpp:52 | `file.read(buffer, 1024)` leaves the stream good only after a full 1024-byte read; it delivers the next 1024 bytes, or the rest of the file |
| Fingerprint.HashedContent | Herman/Herman.cpp:50-60 | the content the loop hashes is a prefix of the file whose length is a whole number of 1024-byte chunks |
| Fingerprint.HexDigit | Herman/Herman.cpp:74 | each digit `std::hex` prints is `0`-`9` or `a`-`f` |
| Fingerprint.DigitValue | Herman/Herman.cpp:71-75 | reading a digit back succeeds exactly on `0`-`9` and `a`-`f` and gives a value below 16 |
| Fingerprint.Hex | Herman/Herman.cpp:71-75 | the rendering has exactly two characters per hash byte, all from `0-9a-f` |
| Fingerprint.Unhex | Herman/Herman.cpp:71-75 | a string that reads back as bytes has two characters per byte |
| Fingerprint.RenderHex | Herman/Herman.cpp:71-75 | the `ostringstream` loop produces the rendering of the hash bytes, byte after byte |
| Fingerprint.CalculateMD5 | Herman/Herman.cpp:21-81 | `calculateMD5` returns `""` when the file does not open or a CryptoAPI call fails, else the rendered MD5 of the path bytes followed by the full 1024-byte chunks of the content |
| Fingerprint.NibbleRoundTrip | Herman/Herman.cpp:74 | a value below 16 printed as a digit reads back as itself |
| Fingerprint.DigitRoundTrip | Herman/Herman.cpp:74 | a lowercase hex digit read as a value prints back as itself |
| Fingerprint.ByteRoundTrip | Herman/Herman.cpp:74 | one byte printed with width 2 and fill `0` reads back as that byte |
| Fingerprint.PairRoundTrip | Herman/Herman.cpp:74 | two digits read as a byte print back as those two digits |
| Fingerprint.UnhexHex | Herman/Herman.cpp:71-75 | decoding the rendered hash gives back the hash bytes |
| Fingerprint.HexUnhex | Herman/Herman.cpp:71-75 | every string that decodes to some bytes is exactly their rendering, so the rendering is one-to-one |
| Fingerprint.FingerprintShape | Herman/Herman.cpp:21-81 | the result is `""` if and only if a step fails; otherwise it is 32 lowercase hex digits that decode to the digest of the hash input |
| Fingerprint.HashInputLength | Herman/Herman.cpp:43-60 | the hash input is the path bytes then the content minus its last `length % 1024` bytes |
| Fingerprint.ShortFileHashesPathOnly | Herman/Herman.cpp:52 | for a file shorter than 1024 bytes only the path is hashed |
| Fingerprint.TrailingBytesIgnored | Herman/Herman.cpp:52-60 | appending fewer than 1024 bytes to whole chunks never changes the fingerprint |
| Walk.Dispatcher.constructor | Herman/Herman.cpp:195 | the `threads` vector starts empty |
| Walk.Dispatcher.ProcessDirectory | Herman/Herman.cpp:153-181 | `processDirectory` appends to `threads` exactly the tasks of the walk of the directory, in order, and reports the directories it cannot open |
| Walk.Run | Herman/Herman.cpp:183-196 | `main` walks the entered path with its quotes stripped, numbering from 1 |
| Walk.WalkVisitsEveryFile | Herman/Herman.cpp:153-172 | the walk dispatches one task per file, in pre-order, carrying the file's full path; `.` and `..` are skipped |
| Walk.WalkFromVisitsEveryFile | Herman/Herman.cpp:160-172 | the same for the loop from entry k on |
| Walk.FilePathsCount | Herman/Herman.cpp:153-172 | there are as many file paths as files |
| Walk.TaskPerFile | Herman/Herman.cpp:153-172 | the number of tasks equals the number of files in the readable part of the tree |
| Walk.IndexBounds | Herman/Herman.cpp:153-172 | every index handed out lies in `[i, i + number of files)` |
| Walk.IndexBoundsFrom | Herman/Herman.cpp:160-172 | the same for the loop from entry k on |
| Walk.TasksBelowRoot | Herman/Herman.cpp:157-168 | every task's path starts with the walked directory followed by `\` |
| Walk.TasksBelowRootFrom | Herman/Herman.cpp:160-168 | the same for the loop from entry k on |
| Walk.UnopenedReported | Herman/Herman.cpp:158-180 | a directory whose search fails adds no task and is reported once |
| Walk.WalkFromStep | Herman/Herman.cpp:160-172 | one loop iteration: the entry's tasks come first (one per file in a subdirectory, one for a file, none for a dot entry), then the loop from the next entry with `i` raised by one only after a file |
| Walk.WalkFromSkips | Herman/Herman.cpp:160-172 | the tasks of the loop from entry k begin with those of entries k..m-1, one per file in their subtrees, and continue as the loop from entry m with `i` advanced only by the files listed directly among them |
| Walk.EntryIndex | Herman/Herman.cpp:160-172 | in any listing, a file entry gets index `i` plus the number of files listed directly before it, and a subdirectory is walked from that same index, its tasks in one block at the position given by all files before it |
| Walk.IndexAfterSubdirectory | Herman/Herman.cpp:160-172 | for `x`, a subdirectory `a` holding `z`, then `y`, walked from 1: `x` gets 1, `a\z` gets 2 and `y` gets 2 |
| Walk.IndicesRepeatAcrossDirectories | Herman/Herman.cpp:165-169 | indices are not unique: a file inside subdirectory `a` and the file `y` after it both get index 1, because `i` is passed by value |
| Worker.RenameSucceeds | Herman/Herman.cpp:140 | when `rename` goes through: the source exists and the target names a different path no file holds |
| Worker.Rename | Herman/Herman.cpp:140 | `rename(from, to)`: either the disk is unchanged, or the source path is gone and the target holds the source's content |
| Worker.GutmannEncrypt | Herman/Herman.cpp:83-145 | the worker leaves the disk and prints the report the wipe defines: an open error for a missing or unopenable file, else write-back, fingerprint, rename and success report |
| Worker.OpenFailureChangesNothing | Herman/Herman.cpp:86-93 | the open-error report is given exactly when the file is missing or refuses to open for reading and writing, and then the disk is unchanged |
| Worker.AlwaysReportsSuccess | Herman/Herman.cpp:140-145 | once the file opens, success is reported with the computed name, even when the name is empty or the rename fails |
| Worker.FinishFrame | Herman/Herman.cpp:130-140 | after write-back and rename the written bytes are at the old or the new path, and every other file is unchanged |
| Worker.WipedContent | Herman/Herman.cpp:95-131 | the file keeps its length and its bytes are the fourth random pass, at whichever path it ends up |
| Worker.OthersUntouched | Herman/Herman.cpp:130-140 | apart from the wiped file and its new name, the disk is as before |
| Worker.RenamedToFingerprint | Herman/Herman.cpp:134-140 | after a successful rename the old path is gone, and the file sits in its old directory under a 32-digit name that is the fingerprint of its original path and final content |
| Worker.RenameMoves | Herman/Herman.cpp:140 | after `rename`, the content sits at the source or the target path, every other file is unchanged, and no path appears but the target |
| Worker.CollisionKeepsWipedFile | Herman/Herman.cpp:140-145 | when a file already answers to any spelling of the target name, the file stays at its path with its content destroyed, nothing else changes, and success is still reported |
| Worker.WalkSpellingCollides | Herman/Herman.cpp:139-145 | a file named `dir\<fingerprint>`, as the walk spells it, blocks the rename to `dir/<fingerprint>`, with the same outcome |
| Worker.BarePathStays | Herman/Herman.cpp:134-145 | a path without a separator is never renamed, since the target lies below the file itself; the content is still destroyed and success reported |
| Worker.HashFailureKeepsWipedFile | Herman/Herman.cpp:134-145 | when `calculateMD5` gives up, the rename to `dir/` fails: the file stays at its path with its content destroyed, nothing else changes, and success is reported with an empty name |

## Left out

- Threads, `join` and the console mutex (lines 13-19, 168, 199-203): each worker is modelled on its own. Interleavings of concurrent workers and their order are not modelled.
- Workers running during the walk (lines 140, 168, 172): the listing of each directory is a snapshot taken before any worker starts. In the program a worker starts at once and may rename its file while `FindNextFileA` is still listing that directory, so a renamed entry could be listed again (a second wipe and rename) or an entry skipped. `Walk.TaskPerFile`, `Walk.WalkVisitsEveryFile` and `Walk.EntryIndex` hold for a listing no worker changes during the walk.
- `srand(time(NULL))` and `rand()` (lines 104-109): the Microsoft C runtime keeps the generator state per thread, so each worker seeds its own generator with the current second and draws its own stream from call 0. Workers started within the same second draw identical streams, so equal-length files wiped in that second end with identical content (`Passes.SameDrawsSameContent`, `Passes.FinalContentIsLastDraw`). Each worker's draws are an input; how the seeds of different workers relate, and the generator's own formula, are not modelled.
- MD5 and the CryptoAPI internals (lines 29-69): MD5 is an arbitrary function to 16 bytes, and each call's failure is an input. Releasing handles (`CryptDestroyHash`, `CryptReleaseContext`) has no observable effect here and is left out.
- `FindFirstFileA`/`FindNextFileA` (lines 157-173): the listing is a finite datatype. A `FindNextFileA` that fails partway through a listing is not modelled. Symbolic-link cycles cannot be expressed in a finite tree.
- `fstream` seek, read and write (lines 96-101, 130-131): an open file's whole content is read and written back. `tellg` failing, short reads and failed writes are not modelled.
- The `catch` block (lines 147-150): exceptions, such as a failed buffer allocation, are not modelled.
- The re-open inside `calculateMD5` during a wipe always succeeds in `Worker`, because the file was just written. `Fingerprint` itself models a failed open.
- `rename` (line 140) is modelled as succeeding exactly when the source exists, both paths hold a separator and share their directory part up to spelling, the target's file-name part is non-empty, and no file on disk answers to any spelling of the target. Two spellings are the same path when they agree after reading `/` as `\` and folding ASCII letters to lower case. Other operating-system reasons for refusal are not modelled.
- Worker.CollisionKeepsWipedFile: the spellings compared ignore case only for ASCII letters, and short 8.3 names, trailing dots and spaces, and drive-relative or UNC forms are not modelled. A rename onto a spelling of the source itself (a file already named by its fingerprint) counts as a collision, which leaves the disk as a successful rename would up to spelling.
- Worker.GutmannEncrypt: a rename into a directory other than the source's own is modelled as failing, since the disk model holds files and not directories. The worker only ever renames within the source's directory.
- Passes.GutmannPasses: the buffer index `i` of lines 108 and 124 is an `int` compared against the 64-bit `fileSize`. For a file of 2^31 bytes or more, `i++` overflows, which is undefined behaviour in C++. The model indexes with unbounded integers and wipes the whole buffer.
- The `filename` computed at line 134 is never used by the program. `Paths.FileName` models it, and `Worker` does not compute it.
- Console and `cerr` text: reports are the `Report` datatype and the list of unopened directories. The message wording is not modelled.
- `countOfFile` and `i` are `int` in the source and are unbounded here. Overflow past 2^31 files is not modelled.
- `Passes.ParseBinary`: `strtol`'s handling of leading blanks, signs and overflow is not modelled. Every table entry is eight plain base-2 digits.

=== FILE: common.dfy ===
/** Types shared by every part of the model: bytes, the 8-bit characters of a
    C++ `std::string`, and an Option for results that may be absent. */
module Common {

  /** One byte of a file or of a hash. */
  type byte = bv8

  /** A `char` of a `std::string`: an 8-bit code unit. */
  type Char8 = c: char | c as int < 256 witness 'a'

  /** A `std::string` used as a path or a file name. */
  type Str = seq<Char8>

  datatype Option<T> = None | Some(value: T)

  /** The bytes `c_str()` hands to a consumer: one byte per character. */
  function Bytes(s: Str): (r: seq<byte>)
    ensures |r| == |s|
  {
    seq(|s|, i requires 0 <= i < |s| => s[i] as int as byte)
  }
}

=== FILE: fingerprint.dfy ===
/** `calculateMD5` (Herman/Herman.cpp:21-81): the new name a wiped file gets.
    The MD5 hash object is fed the path's bytes, then the file's content in
    1024-byte reads, and the 16-byte digest is printed as lowercase hex. Any
    failure of the file open or of a CryptoAPI call yields the empty string. */
module Fingerprint {
  import opened Common

  /** `MD5LEN`: the size of an MD5 digest in bytes. */
  const DigestLength: nat := 16

  /** `sizeof(buffer)`: the size of one read of the content loop. */
  const ChunkSize: nat := 1024

  type Digest = d: seq<byte> | |d| == DigestLength witness seq(16, _ => 0)

  /** The CryptoAPI calls `calculateMD5` makes, each of which may fail.
      `HashChunk(k)` is the `CryptHashData` call on the k-th content chunk. */
  datatype CryptoCall = AcquireContext | CreateHash | HashPath | HashChunk(k: nat) | GetHashParam

  /** The cryptographic provider as the model sees it: the MD5 function it
      computes, and the calls that fail. */
  datatype Provider = Provider(md5: seq<byte> -> Digest, failing: set<CryptoCall>)

  /** What one `file.read(buffer, 1024)` from offset `pos` delivers, and
      whether the stream converts to `true` afterwards: a short read sets
      `failbit`, so only a full 1024-byte read leaves the stream good. */
  datatype ReadResult = ReadResult(data: seq<byte>, good: bool)

  function Read(content: seq<byte>, pos: nat): (r: ReadResult)
    requires pos <= |content|
    ensures r.good <==> pos + ChunkSize <= |content|
    ensures r.good ==> r.data == content[pos..pos + ChunkSize]
    ensures !r.good ==> r.data == content[pos..]
  {
    if pos + ChunkSize <= |content| then ReadResult(content[pos..pos + ChunkSize], true)
    else ReadResult(content[pos..], false)
  }

  /** The number of chunks the loop hashes: only full ones. */
  function FullChunks(n: nat): nat { n / ChunkSize }

  /** The part of the content the loop feeds to the hash object. */
  function HashedContent(content: seq<byte>): (r: seq<byte>)
    ensures |r| == FullChunks(|content|) * ChunkSize
    ensures r <= content
  {
    content[..FullChunks(|content|) * ChunkSize]
  }

  /** Everything fed to the hash object: the path, then the hashed content. */
  function HashInput(path: Str, content: seq<byte>): seq<byte>
  {
    Bytes(path) + HashedContent(content)
  }

  /** Whether `calculateMD5` gives up: the file does not open (`None`), or
      one of the CryptoAPI calls it reaches fails. */
  predicate Fails(file: Option<seq<byte>>, provider: Provider)
  {
    || file.None?
    || AcquireContext in provider.failing
    || CreateHash in provider.failing
    || HashPath in provider.failing
    || (exists k :: 0 <= k < FullChunks(|file.value|) && HashChunk(k) in provider.failing)
    || GetHashParam in provider.failing
  }

  /** The string `calculateMD5` returns. */
  function Fingerprint(path: Str, file: Option<seq<byte>>, provider: Provider): Str
  {
    if Fails(file, provider) then [] else Hex(provider.md5(HashInput(path, file.value)))
  }

  // ---------------------------------------------------------------------
  // Hex rendering: `oss << std::hex << std::setfill('0')` and `std::setw(2)`
  // ---------------------------------------------------------------------

  predicate IsHexDigit(c: char) { '0' <= c <= '9' || 'a' <= c <= 'f' }

  /** The digit `std::hex` prints for a value below 16 (lowercase letters). */
  function HexDigit(v: byte): (c: Char8)
    requires v < 16
    ensures IsHexDigit(c)
  {
    if v == 0 then '0'
    else if v == 1 then '1'
    else if v == 2 then '2'
    else if v == 3 then '3'
    else if v == 4 then '4'
    else if v == 5 then '5'
    else if v == 6 then '6'
    else if v == 7 then '7'
    else if v == 8 then '8'
    else if v == 9 then '9'
    else if v == 10 then 'a'
    else if v == 11 then 'b'
    else if v == 12 then 'c'
    else if v == 13 then 'd'
    else if v == 14 then 'e'
    else 'f'
  }

  /** The value of a hex digit, `None` for any other character. */
  function DigitValue(c: char): (r: Option<byte>)
    ensures r.Some? <==> IsHexDigit(c)
    ensures r.Some? ==> r.value < 16
  {
    if c == '0' then Some(0)
    else if c == '1' then Some(1)
    else if c == '2' then Some(2)
    else if c == '3' then Some(3)
    else if c == '4' then Some(4)
    else if c == '5' then Some(5)
    else if c == '6' then Some(6)
    else if c == '7' then Some(7)
    else if c == '8' then Some(8)
    else if c == '9' then Some(9)
    else if c == 'a' then Some(10)
    else if c == 'b' then Some(11)
    else if c == 'c' then Some(12)
    else if c == 'd' then Some(13)
    else if c == 'e' then Some(14)
    else if c == 'f' then Some(15)
    else None
  }

  /** One byte printed with width 2 and fill `0`: high nibble, then low nibble. */
  function HexByte(b: byte): Str
  {
    [HexDigit(b >> 4), HexDigit(b & 15)]
  }

  /** The bytes printed one after another. */
  function Hex(bytes: seq<byte>): (r: Str)
    ensures |r| == 2 * |bytes|
    ensures forall j :: 0 <= j < |r| ==> IsHexDigit(r[j])
  {
    if bytes == [] then [] else Hex(bytes[..|bytes| - 1]) + HexByte(bytes[|bytes| - 1])
  }

  /** Reads a hex string back into bytes, two digits per byte; `None` when the
      length is odd or a character is not a lowercase hex digit. */
  function Unhex(s: Str): (r: Option<seq<byte>>)
    ensures r.Some? ==> 2 * |r.value| == |s|
  {
    if s == [] then Some([])
    else if |s| < 2 then None
    else
      var prefix := Unhex(s[..|s| - 2]);
      var hi := DigitValue(s[|s| - 2]);
      var lo := DigitValue(s[|s| - 1]);
      if prefix.Some? && hi.Some? && lo.Some? then Some(prefix.value + [(hi.value << 4) | lo.value])
      else None
  }

  // ---------------------------------------------------------------------
  // The procedure
  // ---------------------------------------------------------------------

  /** The printing loop of lines 71-75. */
  method RenderHex(hash: seq<byte>) returns (s: Str)
    ensures s == Hex(hash)
  {
    s := [];
    for i := 0 to |hash|
      invariant s == Hex(hash[..i])
    {
      assert hash[..i + 1][..i] == hash[..i];
      s := s + HexByte(hash[i]);
    }
    assert hash[..|hash|] == hash;
  }

  /** `calculateMD5(path)`, where `file` is the content the stream opened on
      `path` reads (`None` when it does not open). */
  method CalculateMD5(path: Str, file: Option<seq<byte>>, provider: Provider) returns (s: Str)
    ensures s == Fingerprint(path, file, provider)
  {
    if file.None? {
      return [];
    }
    if AcquireContext in provider.failing || CreateHash in provider.failing || HashPath in provider.failing {
      return [];
    }
    var content := file.value;
    var fed := Bytes(path);
    var pos := 0;
    var k := 0;
    var r := Read(content, pos);
    while r.good && |r.data| > 0
      invariant pos == k * ChunkSize <= |content|
      invariant fed == Bytes(path) + content[..pos]
      invariant forall j :: 0 <= j < k ==> HashChunk(j) !in provider.failing
      invariant r == Read(content, pos)
      decreases |content| - pos
    {
      if HashChunk(k) in provider.failing {
        assert k < FullChunks(|content|);
        return [];
      }
      assert content[..pos + |r.data|] == content[..pos] + r.data;
      fed := fed + r.data;
      pos := pos + |r.data|;
      k := k + 1;
      r := Read(content, pos);
    }
    assert k == FullChunks(|content|);
    assert fed == HashInput(path, content);
    if GetHashParam in provider.failing {
      return [];
    }
    var hash := provider.md5(fed);
    s := RenderHex(hash);
  }

  // ---------------------------------------------------------------------
  // Properties
  // ---------------------------------------------------------------------

  /** Printing a nibble and reading it back gives the nibble. */
  lemma NibbleRoundTrip(v: byte)
    requires v < 16
    ensures DigitValue(HexDigit(v)) == Some(v)
  {
  }

  lemma DecimalDigitRoundTrip(c: char)
    requires '0' <= c <= '9'
    ensures HexDigit(DigitValue(c).value) == c
  {
  }

  lemma LetterDigitRoundTrip(c: char)
    requires 'a' <= c <= 'f'
    ensures HexDigit(DigitValue(c).value) == c
  {
  }

  /** Reading a digit and printing its value gives the digit back. */
  lemma DigitRoundTrip(c: char)
    requires IsHexDigit(c)
    ensures HexDigit(DigitValue(c).value) == c
  {
    if '0' <= c <= '9' {
      DecimalDigitRoundTrip(c);
    } else {
      LetterDigitRoundTrip(c);
    }
  }

  /** A byte is its two nibbles, and two nibbles make a byte they come out of. */
  lemma NibbleSplit(b: byte)
    ensures b >> 4 < 16 && b & 15 < 16
    ensures ((b >> 4) << 4) | (b & 15) == b
  {
  }

  lemma NibbleJoin(hi: byte, lo: byte)
    requires hi < 16 && lo < 16
    ensures ((hi << 4) | lo) >> 4 == hi
    ensures ((hi << 4) | lo) & 15 == lo
  {
  }

  /** One printed byte reads back as that byte. */
  lemma ByteRoundTrip(b: byte)
    ensures DigitValue(HexByte(b)[0]).Some? && DigitValue(HexByte(b)[1]).Some?
    ensures (DigitValue(HexByte(b)[0]).value << 4) | DigitValue(HexByte(b)[1]).value == b
  {
    NibbleSplit(b);
    NibbleRoundTrip(b >> 4);
    NibbleRoundTrip(b & 15);
  }

  /** Two digits read as a byte print back as those two digits. */
  lemma PairRoundTrip(c1: char, c2: char)
    requires IsHexDigit(c1) && IsHexDigit(c2)
    ensures HexByte((DigitValue(c1).value << 4) | DigitValue(c2).value) == [c1, c2]
  {
    NibbleJoin(DigitValue(c1).value, DigitValue(c2).value);
    DigitRoundTrip(c1);
    DigitRoundTrip(c2);
  }

  /** The printed digest reads back as the digest: printing loses nothing. */
  lemma {:induction false} UnhexHex(bytes: seq<byte>)
    ensures Unhex(Hex(bytes)) == Some(bytes)
  {
    if bytes != [] {
      var init := bytes[..|bytes| - 1];
      var b := bytes[|bytes| - 1];
      var s := Hex(bytes);
      UnhexHex(init);
      assert s == Hex(init) + HexByte(b);
      assert s[..|s| - 2] == Hex(init);
      assert s[|s| - 2] == HexByte(b)[0] && s[|s| - 1] == HexByte(b)[1];
      ByteRoundTrip(b);
      assert bytes == init + [b];
    }
  }

  /** One step of `Unhex`: a string that reads back ends in two digits, and
      what comes before them reads back too. */
  lemma UnhexStep(s: Str)
    requires s != [] && Unhex(s).Some?
    ensures |s| >= 2 && Unhex(s[..|s| - 2]).Some?
    ensures IsHexDigit(s[|s| - 2]) && IsHexDigit(s[|s| - 1])
    ensures Unhex(s).value == Unhex(s[..|s| - 2]).value + [(DigitValue(s[|s| - 2]).value << 4) | DigitValue(s[|s| - 1]).value]
  {
  }

  /** One step of `Hex`: the bytes are printed one after another. */
  lemma HexStep(init: seq<byte>, b: byte)
    ensures Hex(init + [b]) == Hex(init) + HexByte(b)
  {
    assert (init + [b])[..|init|] == init;
  }

  lemma SplitLastTwo(s: Str)
    requires |s| >= 2
    ensures s == s[..|s| - 2] + [s[|s| - 2], s[|s| - 1]]
  {
  }

  /** Every string that reads back as bytes is exactly how those bytes print:
      the printed form is the only form. */
  lemma {:induction false} HexUnhex(s: Str)
    requires Unhex(s).Some?
    ensures Hex(Unhex(s).value) == s
  {
    if s != [] {
      UnhexStep(s);
      var init := s[..|s| - 2];
      var c1, c2 := s[|s| - 2], s[|s| - 1];
      var prefix := Unhex(init).value;
      var b := (DigitValue(c1).value << 4) | DigitValue(c2).value;
      assert Unhex(s).value == prefix + [b];
      HexUnhex(init);
      assert Hex(prefix) == init;
      HexStep(prefix, b);
      PairRoundTrip(c1, c2);
      assert HexByte(b) == [c1, c2];
      SplitLastTwo(s);
    }
  }

  /** The result is empty exactly when a step fails; otherwise it is the
      32 lowercase hex digits of the digest of the hash input. */
  lemma FingerprintShape(path: Str, file: Option<seq<byte>>, provider: Provider)
    ensures Fingerprint(path, file, provider) == [] <==> Fails(file, provider)
    ensures !Fails(file, provider) ==>
      var fp := Fingerprint(path, file, provider);
      && |fp| == 2 * DigestLength
      && (forall j :: 0 <= j < |fp| ==> IsHexDigit(fp[j]))
      && Unhex(fp).Some? && Unhex(fp).value == provider.md5(HashInput(path, file.value))
  {
    if !Fails(file, provider) {
      UnhexHex(provider.md5(HashInput(path, file.value)));
    }
  }

  /** The hash input is the path and the content up to its last full chunk:
      the trailing `|content| % 1024` bytes are never hashed. */
  lemma HashInputLength(path: Str, content: seq<byte>)
    ensures |HashInput(path, content)| == |path| + |content| - |content| % ChunkSize
    ensures HashInput(path, content)[..|path|] == Bytes(path)
  {
  }

  /** A file shorter than one chunk contributes nothing: only its path is hashed. */
  lemma ShortFileHashesPathOnly(path: Str, content: seq<byte>)
    requires |content| < ChunkSize
    ensures HashInput(path, content) == Bytes(path)
  {
  }

  /** Appending fewer than 1024 bytes to a content of whole chunks does not
      change the fingerprint, whatever those bytes are. */
  lemma TrailingBytesIgnored(path: Str, content: seq<byte>, tail: seq<byte>, provider: Provider)
    requires |content| % ChunkSize == 0 && |tail| < ChunkSize
    ensures Fingerprint(path, Some(content + tail), provider) == Fingerprint(path, Some(content), provider)
  {
    var n := |content + tail|;
    assert FullChunks(n) == FullChunks(|content|);
    assert HashedContent(content + tail) == HashedContent(content);
  }
}

=== FILE: passes.dfy ===
/** The overwrite passes of `GutmannEncrypt` (Herman/Herman.cpp:103-127): four
    passes that replace every byte of the buffer with a fresh `rand() % 256`,
    then 29 passes that XOR every byte with a value parsed, base 2, from an
    entry of a 33-entry pattern table. */
module Passes {
  import opened Common

  /** Number of passes, and how many of them are random. */
  const PassCount: nat := 33
  const RandomPasses: nat := 4

  /** The pattern table, in the source's order. Pass `p` (5..33) uses entry
      `p - 1`, so entries 0..3 are never read. */
  const Patterns: seq<Str> := [
    "01010101", "10101010", "10010010", "01001001", "00100100",
    "00000000", "00010001", "00100010", "00110011", "01000100",
    "01010101", "01100110", "01110111", "10001000", "10011001",
    "10101010", "10111011", "11001100", "11011101", "11101110",
    "11111111", "10010010", "01001001", "00100100", "01101101",
    "10110110", "11011011", "11111111", "10010010", "01001001",
    "00100100", "10010010", "01001001"
  ]

  /** The successive draws of the C library's `rand()`: draw `k` is the value
      returned by the `k`-th call after seeding. */
  type Draws = nat -> nat

  // ---------------------------------------------------------------------
  // strtol(s, nullptr, 2)
  // ---------------------------------------------------------------------

  predicate IsBinaryDigit(c: char) { c == '0' || c == '1' }

  function Pow2(k: nat): (r: nat)
    ensures r >= 1
  {
    if k == 0 then 1 else 2 * Pow2(k - 1)
  }

  /** Where `strtol` stops scanning: the end of the run of base-2 digits that
      starts at index `i`. */
  function RunEnd(s: Str, i: nat): (r: nat)
    requires i <= |s|
    ensures i <= r <= |s|
    decreases |s| - i
  {
    if i < |s| && IsBinaryDigit(s[i]) then RunEnd(s, i + 1) else i
  }

  /** The number denoted by the first `n` characters, all base-2 digits,
      accumulated left to right (`acc = 2 * acc + digit`). */
  function DigitsValue(s: Str, n: nat): (r: nat)
    requires n <= |s|
    ensures r < Pow2(n)
  {
    if n == 0 then 0
    else 2 * DigitsValue(s, n - 1) + (if s[n - 1] == '1' then 1 else 0)
  }

  /** The same accumulation carried out in eight bits, which is all a `char`
      keeps of it. */
  function DigitsByte(s: Str, n: nat): byte
    requires n <= |s|
  {
    if n == 0 then 0
    else (DigitsByte(s, n - 1) << 1) | (if s[n - 1] == '1' then 1 else 0)
  }

  /** `strtol(s, nullptr, 2)` on a string with no leading blanks or sign:
      the value of its leading run of base-2 digits. */
  function ParseBinary(s: Str): (r: nat)
    ensures r < Pow2(RunEnd(s, 0))
  {
    DigitsValue(s, RunEnd(s, 0))
  }

  /** The byte a pattern contributes to `buffer[i] ^= strtol(...)`: the XOR is
      stored into a `char`, so only the low eight bits of the parsed value act. */
  function PatternByte(s: Str): byte
  {
    DigitsByte(s, RunEnd(s, 0))
  }

  // ---------------------------------------------------------------------
  // The passes, as a function of the original content
  // ---------------------------------------------------------------------

  /** The buffer after a random pass whose first `rand()` call is draw `first`. */
  function RandomFill(rand: Draws, first: nat, n: nat): (r: seq<byte>)
    ensures |r| == n
    ensures forall i :: 0 <= i < n ==> r[i] == (rand(first + i) % 256) as byte
  {
    seq(n, i requires 0 <= i < n => (rand(first + i) % 256) as byte)
  }

  /** Every byte XORed with `v`. */
  function XorAll(s: seq<byte>, v: byte): (r: seq<byte>)
    ensures |r| == |s|
    ensures forall i :: 0 <= i < |s| ==> r[i] == s[i] ^ v
  {
    seq(|s|, i requires 0 <= i < |s| => s[i] ^ v)
  }

  /** XOR of the bytes of table entries `lo..hi-1`, folded in table order. */
  function XorRange(table: seq<Str>, lo: nat, hi: nat): byte
    requires hi <= |table|
  {
    if hi <= lo then 0 else XorRange(table, lo, hi - 1) ^ PatternByte(table[hi - 1])
  }

  /** The buffer after passes 1..p, given the original content `s`, the draws of
      `rand()` and the pattern table. */
  function AfterPasses(s: seq<byte>, rand: Draws, table: seq<Str>, p: nat): (r: seq<byte>)
    requires p <= PassCount && |table| == PassCount
    ensures |r| == |s|
    decreases p
  {
    if p == 0 then s
    else if p <= RandomPasses then RandomFill(rand, (p - 1) * |s|, |s|)
    else XorAll(AfterPasses(s, rand, table, p - 1), PatternByte(table[p - 1]))
  }

  /** The content the passes leave behind. */
  function Overwritten(s: seq<byte>, rand: Draws): seq<byte>
  {
    AfterPasses(s, rand, Patterns, PassCount)
  }

  // ---------------------------------------------------------------------
  // The passes, in place
  // ---------------------------------------------------------------------

  /** One random pass (the inner loop of passes 1-4): byte `i` becomes
      `rand() % 256` of call `first + i`. */
  method RandomPass(buffer: array<byte>, rand: Draws, first: nat)
    modifies buffer
    ensures buffer[..] == RandomFill(rand, first, buffer.Length)
  {
    for i := 0 to buffer.Length
      invariant forall j :: 0 <= j < i ==> buffer[j] == (rand(first + j) % 256) as byte
    {
      buffer[i] := (rand(first + i) % 256) as byte;
    }
  }

  /** One XOR pass (the inner loop of passes 5-33). */
  method XorPass(buffer: array<byte>, pattern: Str)
    modifies buffer
    ensures buffer[..] == XorAll(old(buffer[..]), PatternByte(pattern))
  {
    for i := 0 to buffer.Length
      invariant forall j :: 0 <= j < i ==> buffer[j] == old(buffer[j]) ^ PatternByte(pattern)
      invariant forall j :: i <= j < buffer.Length ==> buffer[j] == old(buffer[j])
    {
      buffer[i] := buffer[i] ^ PatternByte(pattern);
    }
  }

  /** Runs the 33 passes over `buffer` in place, with the source's pattern
      table. */
  method GutmannPasses(buffer: array<byte>, rand: Draws)
    modifies buffer
    ensures buffer[..] == Overwritten(old(buffer[..]), rand)
  {
    RunPasses(buffer, rand, Patterns);
  }

  /** The two loops of passes over `buffer`, for any 33-entry table; random
      pass `p` makes calls `(p - 1) * n` to `p * n - 1` of `rand()`. */
  method RunPasses(buffer: array<byte>, rand: Draws, table: seq<Str>)
    requires |table| == PassCount
    modifies buffer
    ensures buffer[..] == AfterPasses(old(buffer[..]), rand, table, PassCount)
  {
    ghost var original := buffer[..];
    var n := buffer.Length;
    var calls := 0;
    for pass := 1 to RandomPasses + 1
      invariant calls == (pass - 1) * n
      invariant buffer[..] == AfterPasses(original, rand, table, pass - 1)
    {
      RandomPass(buffer, rand, calls);
      calls := calls + n;
    }
    for pass := RandomPasses + 1 to PassCount + 1
      invariant buffer[..] == AfterPasses(original, rand, table, pass - 1)
    {
      XorPass(buffer, table[pass - 1]);
    }
  }

  // ---------------------------------------------------------------------
  // Properties
  // ---------------------------------------------------------------------

  /** Once the random passes have run, the original content has no influence:
      two buffers of the same length end every later pass identical. */
  lemma {:induction false} ContentForgotten(s1: seq<byte>, s2: seq<byte>, rand: Draws, table: seq<Str>, p: nat)
    requires |s1| == |s2|
    requires RandomPasses <= p <= PassCount && |table| == PassCount
    ensures AfterPasses(s1, rand, table, p) == AfterPasses(s2, rand, table, p)
  {
    if p > RandomPasses {
      ContentForgotten(s1, s2, rand, table, p - 1);
    }
  }

  /** After the fourth pass every byte is the last random draw for its position. */
  lemma RandomStageResult(s: seq<byte>, rand: Draws, table: seq<Str>, i: nat)
    requires |table| == PassCount && i < |s|
    ensures AfterPasses(s, rand, table, RandomPasses)[i] == (rand(3 * |s| + i) % 256) as byte
  {
  }

  lemma XorAllTwice(s: seq<byte>, a: byte, b: byte)
    ensures XorAll(XorAll(s, a), b) == XorAll(s, a ^ b)
  {
  }

  /** The XOR stage applies table entries 4 through p-1 in order; its net effect
      is a single XOR with their fold. */
  lemma {:induction false} XorStageNet(s: seq<byte>, rand: Draws, table: seq<Str>, p: nat)
    requires RandomPasses <= p <= PassCount && |table| == PassCount
    ensures AfterPasses(s, rand, table, p)
         == XorAll(AfterPasses(s, rand, table, RandomPasses), XorRange(table, RandomPasses, p))
  {
    var base := AfterPasses(s, rand, table, RandomPasses);
    if p == RandomPasses {
      assert XorAll(base, 0) == base;
    } else {
      XorStageNet(s, rand, table, p - 1);
      XorAllTwice(base, XorRange(table, RandomPasses, p - 1), PatternByte(table[p - 1]));
    }
  }

  /** The first four table entries are dead: two tables that agree on entries
      4..32 leave the same content after every pass. */
  lemma {:induction false} DeadEntries(s: seq<byte>, rand: Draws, t1: seq<Str>, t2: seq<Str>, p: nat)
    requires |t1| == PassCount && |t2| == PassCount && p <= PassCount
    requires forall k :: RandomPasses <= k < PassCount ==> t1[k] == t2[k]
    ensures AfterPasses(s, rand, t1, p) == AfterPasses(s, rand, t2, p)
  {
    if p > RandomPasses {
      DeadEntries(s, rand, t1, t2, p - 1);
    }
  }

  /** The low byte of `strtol`'s value is what the eight-bit accumulation gives. */
  lemma {:induction false} DigitsByteIsLowByte(s: Str, n: nat)
    requires n <= |s|
    ensures DigitsByte(s, n) as int == DigitsValue(s, n) % 256
  {
    if n > 0 {
      DigitsByteIsLowByte(s, n - 1);
      var b, v := DigitsByte(s, n - 1), DigitsValue(s, n - 1);
      if s[n - 1] == '1' {
        ShiftInOne(b);
        DoubleMod(v, 1);
      } else {
        ShiftInZero(b);
        DoubleMod(v, 0);
      }
    }
  }

  lemma ShiftInZero(b: byte)
    ensures ((b << 1) | 0) as int == (2 * (b as int)) % 256
  {
  }

  lemma ShiftInOne(b: byte)
    ensures ((b << 1) | 1) as int == (2 * (b as int) + 1) % 256
  {
  }

  lemma DoubleMod(v: nat, d: nat)
    ensures (2 * (v % 256) + d) % 256 == (2 * v + d) % 256
  {
    assert 2 * v + d == 256 * (2 * (v / 256)) + (2 * (v % 256) + d);
  }

  /** The byte XORed into the buffer is `strtol`'s value modulo 256. */
  lemma PatternByteIsLowByte(s: Str)
    ensures PatternByte(s) as int == ParseBinary(s) % 256
  {
    DigitsByteIsLowByte(s, RunEnd(s, 0));
  }

  /** An entry of at most eight characters parses to a value that fits a byte,
      so nothing is lost when it is XORed into a `char`. */
  lemma FitsInByte(s: Str)
    requires |s| <= 8
    ensures ParseBinary(s) < 256
    ensures PatternByte(s) as int == ParseBinary(s)
  {
    PowMono(RunEnd(s, 0), 8);
    PatternByteIsLowByte(s);
  }

  lemma {:induction false} PowMono(a: nat, b: nat)
    requires a <= b
    ensures Pow2(a) <= Pow2(b)
  {
    if a < b {
      PowMono(a, b - 1);
    }
  }

  // The entries the XOR passes read (4..32), one by one: each is eight
  // base-2 digits and parses to the byte shown.
  lemma PatternAt4() ensures |Patterns[4]| == 8 && PatternByte(Patterns[4]) == 0x24 {}
  lemma PatternAt5() ensures |Patterns[5]| == 8 && PatternByte(Patterns[5]) == 0x00 {}
  lemma PatternAt6() ensures |Patterns[6]| == 8 && PatternByte(Patterns[6]) == 0x11 {}
  lemma PatternAt7() ensures |Patterns[7]| == 8 && PatternByte(Patterns[7]) == 0x22 {}
  lemma PatternAt8() ensures |Patterns[8]| == 8 && PatternByte(Patterns[8]) == 0x33 {}
  lemma PatternAt9() ensures |Patterns[9]| == 8 && PatternByte(Patterns[9]) == 0x44 {}
  lemma PatternAt10() ensures |Patterns[10]| == 8 && PatternByte(Patterns[10]) == 0x55 {}
  lemma PatternAt11() ensures |Patterns[11]| == 8 && PatternByte(Patterns[11]) == 0x66 {}
  lemma PatternAt12() ensures |Patterns[12]| == 8 && PatternByte(Patterns[12]) == 0x77 {}
  lemma PatternAt13() ensures |Patterns[13]| == 8 && PatternByte(Patterns[13]) == 0x88 {}
  lemma PatternAt14() ensures |Patterns[14]| == 8 && PatternByte(Patterns[14]) == 0x99 {}
  lemma PatternAt15() ensures |Patterns[15]| == 8 && PatternByte(Patterns[15]) == 0xAA {}
  lemma PatternAt16() ensures |Patterns[16]| == 8 && PatternByte(Patterns[16]) == 0xBB {}
  lemma PatternAt17() ensures |Patterns[17]| == 8 && PatternByte(Patterns[17]) == 0xCC {}
  lemma PatternAt18() ensures |Patterns[18]| == 8 && PatternByte(Patterns[18]) == 0xDD {}
  lemma PatternAt19() ensures |Patterns[19]| == 8 && PatternByte(Patterns[19]) == 0xEE {}
  lemma PatternAt20() ensures |Patterns[20]| == 8 && PatternByte(Patterns[20]) == 0xFF {}
  lemma PatternAt21() ensures |Patterns[21]| == 8 && PatternByte(Patterns[21]) == 0x92 {}
  lemma PatternAt22() ensures |Patterns[22]| == 8 && PatternByte(Patterns[22]) == 0x49 {}
  lemma PatternAt23() ensures |Patterns[23]| == 8 && PatternByte(Patterns[23]) == 0x24 {}
  lemma PatternAt24() ensures |Patterns[24]| == 8 && PatternByte(Patterns[24]) == 0x6D {}
  lemma PatternAt25() ensures |Patterns[25]| == 8 && PatternByte(Patterns[25]) == 0xB6 {}
  lemma PatternAt26() ensures |Patterns[26]| == 8 && PatternByte(Patterns[26]) == 0xDB {}
  lemma PatternAt27() ensures |Patterns[27]| == 8 && PatternByte(Patterns[27]) == 0xFF {}
  lemma PatternAt28() ensures |Patterns[28]| == 8 && PatternByte(Patterns[28]) == 0x92 {}
  lemma PatternAt29() ensures |Patterns[29]| == 8 && PatternByte(Patterns[29]) == 0x49 {}
  lemma PatternAt30() ensures |Patterns[30]| == 8 && PatternByte(Patterns[30]) == 0x24 {}
  lemma PatternAt31() ensures |Patterns[31]| == 8 && PatternByte(Patterns[31]) == 0x92 {}
  lemma PatternAt32() ensures |Patterns[32]| == 8 && PatternByte(Patterns[32]) == 0x49 {}

  /** The 29 patterns the XOR stage uses cancel out: their fold is zero, so
      the XOR stage as a whole leaves the buffer unchanged. */
  lemma XorStageCancels()
    ensures XorRange(Patterns, RandomPasses, PassCount) == 0
  {
    var table := Patterns;
    PatternAt4(); assert XorRange(table, 4, 5) == 0x24;
    PatternAt5(); assert XorRange(table, 4, 6) == 0x24;
    PatternAt6(); assert XorRange(table, 4, 7) == 0x35;
    PatternAt7(); assert XorRange(table, 4, 8) == 0x17;
    PatternAt8(); assert XorRange(table, 4, 9) == 0x24;
    PatternAt9(); assert XorRange(table, 4, 10) == 0x60;
    PatternAt10(); assert XorRange(table, 4, 11) == 0x35;
    PatternAt11(); assert XorRange(table, 4, 12) == 0x53;
    PatternAt12(); assert XorRange(table, 4, 13) == 0x24;
    PatternAt13(); assert XorRange(table, 4, 14) == 0xAC;
    PatternAt14(); assert XorRange(table, 4, 15) == 0x35;
    PatternAt15(); assert XorRange(table, 4, 16) == 0x9F;
    PatternAt16(); assert XorRange(table, 4, 17) == 0x24;
    PatternAt17(); assert XorRange(table, 4, 18) == 0xE8;
    PatternAt18(); assert XorRange(table, 4, 19) == 0x35;
    PatternAt19(); assert XorRange(table, 4, 20) == 0xDB;
    PatternAt20(); assert XorRange(table, 4, 21) == 0x24;
    PatternAt21(); assert XorRange(table, 4, 22) == 0xB6;
    PatternAt22(); assert XorRange(table, 4, 23) == 0xFF;
    PatternAt23(); assert XorRange(table, 4, 24) == 0xDB;
    PatternAt24(); assert XorRange(table, 4, 25) == 0xB6;
    PatternAt25(); assert XorRange(table, 4, 26) == 0x00;
    PatternAt26(); assert XorRange(table, 4, 27) == 0xDB;
    PatternAt27(); assert XorRange(table, 4, 28) == 0x24;
    PatternAt28(); assert XorRange(table, 4, 29) == 0xB6;
    PatternAt29(); assert XorRange(table, 4, 30) == 0xFF;
    PatternAt30(); assert XorRange(table, 4, 31) == 0xDB;
    PatternAt31(); assert XorRange(table, 4, 32) == 0x49;
    PatternAt32(); assert XorRange(table, 4, 33) == 0x00;
  }

  /** Two files of the same length wiped with the same draws end identical,
      whatever they held before: the case of two workers whose generators
      were seeded in the same second. */
  lemma SameDrawsSameContent(s1: seq<byte>, s2: seq<byte>, rand: Draws)
    requires |s1| == |s2|
    ensures Overwritten(s1, rand) == Overwritten(s2, rand)
  {
    ContentForgotten(s1, s2, rand, Patterns, PassCount);
  }

  /** Net effect of all 33 passes: the final content is exactly the fourth
      random pass, whatever the original content was. */
  lemma FinalContentIsLastDraw(s: seq<byte>, rand: Draws)
    ensures Overwritten(s, rand) == RandomFill(rand, (RandomPasses - 1) * |s|, |s|)
  {
    XorStageNet(s, rand, Patterns, PassCount);
    XorStageCancels();
    var base := AfterPasses(s, rand, Patterns, RandomPasses);
    assert XorAll(base, 0) == base;
  }
}

=== FILE: paths.dfy ===
/** The two path computations of `GutmannEncrypt` (Herman/Herman.cpp:134, 139):
    the file name after the last `\` or `/`, and the new path that puts the
    fingerprint in place of that file name. Both go through
    `find_last_of("\\/")`, whose "not found" answer is `npos`. */
module Paths {
  import opened Common

  predicate IsSeparator(c: char) { c == '\\' || c == '/' }

  predicate HasSeparator(s: Str) { exists j :: 0 <= j < |s| && IsSeparator(s[j]) }

  /** `s.find_last_of("\\/")`; `None` stands for `npos`. */
  function FindLastSeparator(s: Str): (r: Option<nat>)
    ensures r.Some? ==> r.value < |s| && IsSeparator(s[r.value])
    ensures r.Some? ==> forall j :: r.value < j < |s| ==> !IsSeparator(s[j])
    ensures r.None? <==> !HasSeparator(s)
  {
    if s == [] then None
    else if IsSeparator(s[|s| - 1]) then Some(|s| - 1)
    else FindLastSeparator(s[..|s| - 1])
  }

  /** `s.substr(s.find_last_of("\\/") + 1)`: with no separator, `npos + 1`
      wraps around to 0 in `size_t` arithmetic, so the whole string. */
  function FileName(s: Str): (r: Str)
    ensures |r| <= |s| && r == s[|s| - |r|..]
    ensures !HasSeparator(r)
    ensures !HasSeparator(s) ==> r == s
  {
    match FindLastSeparator(s)
    case Some(k) => s[k + 1..]
    case None => s[0..]
  }

  /** `s.substr(0, s.find_last_of("\\/"))`: with no separator, the count is
      `npos`, which `substr` clamps to the whole string. */
  function Directory(s: Str): (r: Str)
    ensures r <= s
    ensures !HasSeparator(s) ==> r == s
    ensures HasSeparator(s) ==> |r| < |s| && IsSeparator(s[|r|]) && s[|r| + 1..] == FileName(s)
  {
    match FindLastSeparator(s)
    case Some(k) => s[..k]
    case None => s
  }

  /** The new path of line 139: the directory part, a `/`, then the fingerprint. */
  function NewFilePath(s: Str, fingerprint: Str): (r: Str)
    ensures |r| == |Directory(s)| + 1 + |fingerprint|
    ensures Directory(s) <= r && r[|Directory(s)|] == '/' && r[|Directory(s)| + 1..] == fingerprint
  {
    Directory(s) + "/" + fingerprint
  }

  // ---------------------------------------------------------------------
  // Properties
  // ---------------------------------------------------------------------

  /** With a separator, the path is its directory part, the last separator and
      the file name, and the file name holds no separator. */
  lemma SplitAtLastSeparator(s: Str)
    requires HasSeparator(s)
    ensures FindLastSeparator(s).Some?
    ensures s == Directory(s) + [s[FindLastSeparator(s).value]] + FileName(s)
    ensures !HasSeparator(FileName(s))
  {
    var k := FindLastSeparator(s).value;
    assert s == s[..k] + [s[k]] + s[k + 1..];
    forall j | 0 <= j < |FileName(s)|
      ensures !IsSeparator(FileName(s)[j])
    {
      assert FileName(s)[j] == s[k + 1 + j];
    }
  }

  /** Without a separator, the file name is the whole path, and so is the
      directory part: the new path is the old path, a `/`, then the fingerprint. */
  lemma NoSeparator(s: Str, fingerprint: Str)
    requires !HasSeparator(s)
    ensures FileName(s) == s
    ensures NewFilePath(s, fingerprint) == s + "/" + fingerprint
  {
  }

  /** An empty fingerprint (the failure result of the hash step) yields a path
      that ends in `/`. */
  lemma EmptyFingerprint(s: Str)
    ensures |NewFilePath(s, "")| == |Directory(s)| + 1
    ensures NewFilePath(s, "")[|Directory(s)|] == '/'
  {
  }

  /** The directory part of the new path is the directory part of the old one,
      and its file name is the fingerprint, as long as the fingerprint holds no
      separator: the file is renamed within its own directory. */
  lemma RenameStaysInDirectory(s: Str, fingerprint: Str)
    requires !HasSeparator(fingerprint)
    ensures FileName(NewFilePath(s, fingerprint)) == fingerprint
    ensures Directory(NewFilePath(s, fingerprint)) == Directory(s)
  {
    var d := Directory(s);
    var t := NewFilePath(s, fingerprint);
    assert t[|d|] == '/';
    var k := FindLastSeparator(t).value;
    assert k == |d|;
    assert t[..k] == d;
    assert t[k + 1..] == fingerprint;
  }

  // ---------------------------------------------------------------------
  // Path spellings
  // ---------------------------------------------------------------------

  /** How Windows compares one character of two path spellings: `/` and `\`
      are the same separator, and ASCII letters compare without regard to
      case. */
  function NormalChar(c: Char8): (r: Char8)
    ensures IsSeparator(r) <==> IsSeparator(c)
    ensures 'A' <= c <= 'Z' ==> r as int == c as int + 32
    ensures !IsSeparator(c) && !('A' <= c <= 'Z') ==> r == c
  {
    if IsSeparator(c) then '\\'
    else if 'A' <= c <= 'Z' then (c as int + 32) as char
    else c
  }

  /** The spelling of a path that Windows compares. */
  function Normal(s: Str): (r: Str)
    ensures |r| == |s|
    ensures forall i :: 0 <= i < |s| ==> r[i] == NormalChar(s[i])
  {
    seq(|s|, i requires 0 <= i < |s| => NormalChar(s[i]))
  }

  /** Two spellings of the same path. */
  predicate SamePath(a: Str, b: Str)
  {
    Normal(a) == Normal(b)
  }

  /** The new path of line 139 joins with `/`, while the paths the directory
      walk builds join with `\`: both spellings name the same file. */
  lemma SeparatorSpellingsAgree(d: Str, name: Str)
    ensures SamePath(d + "/" + name, d + "\\" + name)
    ensures d + "/" + name != d + "\\" + name
  {
    var a := d + "/" + name;
    var b := d + "\\" + name;
    assert a[|d|] != b[|d|];
    forall i | 0 <= i < |a|
      ensures Normal(a)[i] == Normal(b)[i]
    {
      if i != |d| {
        assert a[i] == b[i];
      }
    }
  }
}

=== FILE: sanitize.dfy ===
/** The input clean-up of `main` (Herman/Herman.cpp:188-193): every `"` the
    user typed around the folder path is dropped. */
module Sanitize {
  import opened Common

  const Quote: Char8 := '"'

  /** The entered path with every `"` removed, other characters in order. */
  function WithoutQuotes(s: Str): Str
  {
    if s == [] then []
    else WithoutQuotes(s[..|s| - 1]) + (if s[|s| - 1] == Quote then [] else [s[|s| - 1]])
  }

  /** The loop of `main`: appends each character that is not `"` to `result`. */
  method StripQuotes(input: Str) returns (result: Str)
    ensures result == WithoutQuotes(input)
  {
    result := [];
    for i := 0 to |input|
      invariant result == WithoutQuotes(input[..i])
    {
      var c := input[i];
      assert input[..i + 1][..i] == input[..i];
      if c != Quote {
        result := result + [c];
      }
    }
    assert input[..|input|] == input;
  }

  // ---------------------------------------------------------------------
  // Properties
  // ---------------------------------------------------------------------

  /** Stripping distributes over concatenation: each character is kept or
      dropped on its own, so the kept ones stay in their original order. */
  lemma {:induction false} StripConcat(a: Str, b: Str)
    ensures WithoutQuotes(a + b) == WithoutQuotes(a) + WithoutQuotes(b)
  {
    if b != [] {
      StripConcat(a, b[..|b| - 1]);
      assert (a + b)[..|a + b| - 1] == a + b[..|b| - 1];
    } else {
      assert a + b == a;
    }
  }

  /** A single character survives exactly when it is not `"`. */
  lemma StripOne(c: Char8)
    ensures WithoutQuotes([c]) == if c == Quote then [] else [c]
  {
    assert [c][..0] == [];
  }

  /** The result holds no `"`, and every other character keeps its count. */
  lemma {:induction false} NoQuoteLeft(s: Str)
    ensures Quote !in WithoutQuotes(s)
    ensures forall c :: c != Quote ==> multiset(WithoutQuotes(s))[c] == multiset(s)[c]
    ensures multiset(WithoutQuotes(s))[Quote] == 0
  {
    if s != [] {
      NoQuoteLeft(s[..|s| - 1]);
      assert s == s[..|s| - 1] + [s[|s| - 1]];
    }
  }

  /** A path without `"` is left alone. */
  lemma {:induction false} NoQuoteUnchanged(s: Str)
    requires Quote !in s
    ensures WithoutQuotes(s) == s
  {
    if s != [] {
      NoQuoteUnchanged(s[..|s| - 1]);
      assert s == s[..|s| - 1] + [s[|s| - 1]];
    }
  }

  /** The input comes through unchanged exactly when it holds no `"`. */
  lemma UnchangedIffNoQuote(s: Str)
    ensures WithoutQuotes(s) == s <==> Quote !in s
  {
    NoQuoteLeft(s);
    if Quote !in s {
      NoQuoteUnchanged(s);
    }
  }

  /** Stripping twice is stripping once. */
  lemma Idempotent(s: Str)
    ensures WithoutQuotes(WithoutQuotes(s)) == WithoutQuotes(s)
  {
    NoQuoteLeft(s);
    NoQuoteUnchanged(WithoutQuotes(s));
  }
}

=== FILE: walk.dfy ===
/** The tree walk of `processDirectory` (Herman/Herman.cpp:153-181) and the
    start-up of `main` (Herman/Herman.cpp:183-206). The walk visits the
    entries of a directory in listing order, skips `.` and `..`, descends
    into subdirectories before going on with their siblings, and appends one
    task `(fullPath, i)` to the `threads` vector per file, counting `i` up
    after each. `i` is passed by value: a subdirectory's files are numbered
    from the parent's current `i`, and the parent does not see the count
    they reached. */
module Walk {
  import opened Common
  import Sanitize

  /** One entry `FindFirstFileA`/`FindNextFileA` report: its name and whether
      `FILE_ATTRIBUTE_DIRECTORY` is set (with the subdirectory's own listing). */
  datatype Entry = Entry(name: Str, kind: Kind)

  datatype Kind = File | Directory(listing: Listing)

  /** What a directory yields when searched with `dirPath + "\\*"`:
      `Unreadable` when the search cannot start, else the entries in the order
      the system enumerates them. */
  datatype Listing = Unreadable | Listed(entries: seq<Entry>)

  /** The arguments of one `threads.emplace_back(GutmannEncrypt, fullPath, i)`. */
  datatype Task = Task(path: Str, index: int)

  /** What a walk produces: the tasks dispatched, and the directories
      reported as impossible to open, each in order. */
  datatype Outcome = Outcome(tasks: seq<Task>, unopened: seq<Str>)

  function Then(a: Outcome, b: Outcome): (r: Outcome)
    ensures r.tasks == a.tasks + b.tasks && r.unopened == a.unopened + b.unopened
  {
    Outcome(a.tasks + b.tasks, a.unopened + b.unopened)
  }

  predicate IsDotEntry(name: Str) { name == "." || name == ".." }

  /** `dirPath + "\\" + name`. */
  function Child(dirPath: Str, name: Str): Str { dirPath + "\\" + name }

  /** `FindFirstFileA` returns a valid handle: the directory can be read and
      has at least one entry. */
  predicate Opens(listing: Listing) { listing.Listed? && |listing.entries| > 0 }

  /** `processDirectory(dirPath, i, threads)` on a directory with this listing. */
  function Walk(dirPath: Str, listing: Listing, i: int): Outcome
    decreases listing, 1
  {
    if Opens(listing) then WalkFrom(dirPath, listing, 0, i) else Outcome([], [dirPath])
  }

  /** The iterations of the do-while loop from the k-th entry on, with the
      counter at `i`. */
  function WalkFrom(dirPath: Str, listing: Listing, k: nat, i: int): Outcome
    requires listing.Listed? && k <= |listing.entries|
    decreases listing, 0, |listing.entries| - k
  {
    if k == |listing.entries| then Outcome([], [])
    else
      var e := listing.entries[k];
      if IsDotEntry(e.name) then WalkFrom(dirPath, listing, k + 1, i)
      else match e.kind
        case Directory(sub) =>
          Then(Walk(Child(dirPath, e.name), sub, i), WalkFrom(dirPath, listing, k + 1, i))
        case File =>
          Then(Outcome([Task(Child(dirPath, e.name), i)], []), WalkFrom(dirPath, listing, k + 1, i + 1))
  }

  /** The `threads` vector of `main`, and the console's record of the
      directories that could not be opened. */
  class Dispatcher {
    var threads: seq<Task>
    var unopened: seq<Str>

    constructor ()
      ensures threads == [] && unopened == []
    {
      threads := [];
      unopened := [];
    }

    /** `processDirectory(dirPath, i, threads)`. */
    method ProcessDirectory(dirPath: Str, listing: Listing, i: int)
      modifies this
      ensures threads == old(threads) + Walk(dirPath, listing, i).tasks
      ensures unopened == old(unopened) + Walk(dirPath, listing, i).unopened
      decreases listing, 1
    {
      if Opens(listing) {
        var entries := listing.entries;
        var k := 0;
        var j := i;
        ghost var goal := Then(Outcome(threads, unopened), Walk(dirPath, listing, i));
        while k < |entries|
          invariant 0 <= k <= |entries|
          invariant threads + WalkFrom(dirPath, listing, k, j).tasks == goal.tasks
          invariant unopened + WalkFrom(dirPath, listing, k, j).unopened == goal.unopened
          decreases |entries| - k
        {
          var e := entries[k];
          if !IsDotEntry(e.name) {
            var fullPath := Child(dirPath, e.name);
            if e.kind.Directory? {
              ghost var sub := Walk(fullPath, e.kind.listing, j);
              ghost var rest := WalkFrom(dirPath, listing, k + 1, j);
              assert WalkFrom(dirPath, listing, k, j) == Then(sub, rest);
              Regroup(threads, sub.tasks, rest.tasks);
              Regroup(unopened, sub.unopened, rest.unopened);
              ProcessDirectory(fullPath, e.kind.listing, j);
            } else {
              ghost var rest := WalkFrom(dirPath, listing, k + 1, j + 1);
              assert WalkFrom(dirPath, listing, k, j) == Then(Outcome([Task(fullPath, j)], []), rest);
              Regroup(threads, [Task(fullPath, j)], rest.tasks);
              threads := threads + [Task(fullPath, j)];
              j := j + 1;
            }
          }
          k := k + 1;
        }
      } else {
        unopened := unopened + [dirPath];
      }
    }
  }

  lemma Regroup<T>(a: seq<T>, b: seq<T>, c: seq<T>)
    ensures a + (b + c) == (a + b) + c
  {
  }

  /** `main`: the entered path with its quotes stripped is walked from
      index 1. `root` is the listing of the directory the path names. */
  method Run(input: Str, root: Listing) returns (d: Dispatcher)
    ensures d.threads == Walk(Sanitize.WithoutQuotes(input), root, 1).tasks
    ensures d.unopened == Walk(Sanitize.WithoutQuotes(input), root, 1).unopened
  {
    var path := Sanitize.StripQuotes(input);
    d := new Dispatcher();
    d.ProcessDirectory(path, root, 1);
  }

  // ---------------------------------------------------------------------
  // Reference definitions, without the counter
  // ---------------------------------------------------------------------

  /** The number of files in the readable part of the tree. */
  function FileCount(listing: Listing): nat
    decreases listing, 1
  {
    if Opens(listing) then FileCountFrom(listing, 0) else 0
  }

  function FileCountFrom(listing: Listing, k: nat): nat
    requires listing.Listed? && k <= |listing.entries|
    decreases listing, 0, |listing.entries| - k
  {
    if k == |listing.entries| then 0
    else
      var e := listing.entries[k];
      var here := if IsDotEntry(e.name) then 0 else match e.kind
        case Directory(sub) => FileCount(sub)
        case File => 1;
      here + FileCountFrom(listing, k + 1)
  }

  /** The paths of the files in the readable part of the tree, in pre-order. */
  function FilePaths(dirPath: Str, listing: Listing): seq<Str>
    decreases listing, 1
  {
    if Opens(listing) then FilePathsFrom(dirPath, listing, 0) else []
  }

  function FilePathsFrom(dirPath: Str, listing: Listing, k: nat): seq<Str>
    requires listing.Listed? && k <= |listing.entries|
    decreases listing, 0, |listing.entries| - k
  {
    if k == |listing.entries| then []
    else
      var e := listing.entries[k];
      var here := if IsDotEntry(e.name) then [] else match e.kind
        case Directory(sub) => FilePaths(Child(dirPath, e.name), sub)
        case File => [Child(dirPath, e.name)];
      here + FilePathsFrom(dirPath, listing, k + 1)
  }

  // ---------------------------------------------------------------------
  // Properties
  // ---------------------------------------------------------------------

  /** The walk dispatches exactly one task per file of the tree, in
      pre-order, and the task carries the file's full path. */
  lemma {:induction false} WalkVisitsEveryFile(dirPath: Str, listing: Listing, i: int)
    ensures |Walk(dirPath, listing, i).tasks| == |FilePaths(dirPath, listing)|
    ensures forall k :: 0 <= k < |FilePaths(dirPath, listing)| ==>
      Walk(dirPath, listing, i).tasks[k].path == FilePaths(dirPath, listing)[k]
    decreases listing, 1
  {
    if Opens(listing) {
      WalkFromVisitsEveryFile(dirPath, listing, 0, i);
    }
  }

  lemma {:induction false} WalkFromVisitsEveryFile(dirPath: Str, listing: Listing, k: nat, i: int)
    requires listing.Listed? && k <= |listing.entries|
    ensures |WalkFrom(dirPath, listing, k, i).tasks| == |FilePathsFrom(dirPath, listing, k)|
    ensures forall j :: 0 <= j < |FilePathsFrom(dirPath, listing, k)| ==>
      WalkFrom(dirPath, listing, k, i).tasks[j].path == FilePathsFrom(dirPath, listing, k)[j]
    decreases listing, 0, |listing.entries| - k
  {
    if k < |listing.entries| {
      var e := listing.entries[k];
      if IsDotEntry(e.name) {
        WalkFromVisitsEveryFile(dirPath, listing, k + 1, i);
      } else if e.kind.Directory? {
        WalkVisitsEveryFile(Child(dirPath, e.name), e.kind.listing, i);
        WalkFromVisitsEveryFile(dirPath, listing, k + 1, i);
      } else {
        WalkFromVisitsEveryFile(dirPath, listing, k + 1, i + 1);
      }
    }
  }

  /** The number of paths is the number of files, whatever the root path. */
  lemma {:induction false} FilePathsCount(dirPath: Str, listing: Listing)
    ensures |FilePaths(dirPath, listing)| == FileCount(listing)
    decreases listing, 1
  {
    if Opens(listing) {
      FilePathsFromCount(dirPath, listing, 0);
    }
  }

  lemma {:induction false} FilePathsFromCount(dirPath: Str, listing: Listing, k: nat)
    requires listing.Listed? && k <= |listing.entries|
    ensures |FilePathsFrom(dirPath, listing, k)| == FileCountFrom(listing, k)
    decreases listing, 0, |listing.entries| - k
  {
    if k < |listing.entries| {
      var e := listing.entries[k];
      if !IsDotEntry(e.name) && e.kind.Directory? {
        FilePathsCount(Child(dirPath, e.name), e.kind.listing);
      }
      FilePathsFromCount(dirPath, listing, k + 1);
    }
  }

  /** One task per file: the number of tasks is the number of files in the
      readable part of the tree. */
  lemma TaskPerFile(dirPath: Str, listing: Listing, i: int)
    ensures |Walk(dirPath, listing, i).tasks| == FileCount(listing)
  {
    WalkVisitsEveryFile(dirPath, listing, i);
    FilePathsCount(dirPath, listing);
  }

  /** Every index handed out lies in `[i, i + FileCount)`: numbering starts
      at the `i` passed in and never runs past the number of files. */
  lemma {:induction false} IndexBounds(dirPath: Str, listing: Listing, i: int)
    ensures forall t :: t in Walk(dirPath, listing, i).tasks ==> i <= t.index < i + FileCount(listing)
    decreases listing, 1
  {
    if Opens(listing) {
      IndexBoundsFrom(dirPath, listing, 0, i);
    }
  }

  lemma {:induction false} IndexBoundsFrom(dirPath: Str, listing: Listing, k: nat, i: int)
    requires listing.Listed? && k <= |listing.entries|
    ensures forall t :: t in WalkFrom(dirPath, listing, k, i).tasks ==> i <= t.index < i + FileCountFrom(listing, k)
    decreases listing, 0, |listing.entries| - k
  {
    if k < |listing.entries| {
      var e := listing.entries[k];
      if IsDotEntry(e.name) {
        IndexBoundsFrom(dirPath, listing, k + 1, i);
      } else if e.kind.Directory? {
        IndexBounds(Child(dirPath, e.name), e.kind.listing, i);
        IndexBoundsFrom(dirPath, listing, k + 1, i);
      } else {
        IndexBoundsFrom(dirPath, listing, k + 1, i + 1);
      }
    }
  }

  /** The files listed directly among entries `[k, m)`, not counting what
      lies below subdirectories: how far the loop's counter moves over them. */
  function FilesBetween(listing: Listing, k: nat, m: nat): nat
    requires listing.Listed? && k <= m <= |listing.entries|
    decreases m - k
  {
    if k == m then 0
    else
      var e := listing.entries[k];
      (if !IsDotEntry(e.name) && e.kind.File? then 1 else 0) + FilesBetween(listing, k + 1, m)
  }

  /** All files among entries `[k, m)`, including those below
      subdirectories: how many tasks those entries dispatch. */
  function TreeFilesBetween(listing: Listing, k: nat, m: nat): nat
    requires listing.Listed? && k <= m <= |listing.entries|
    decreases m - k
  {
    if k == m then 0
    else
      var e := listing.entries[k];
      var here := if IsDotEntry(e.name) then 0 else match e.kind
        case Directory(sub) => FileCount(sub)
        case File => 1;
      here + TreeFilesBetween(listing, k + 1, m)
  }

  /** One entry of the loop: its tasks come first, then the loop goes on
      from the next entry with the counter advanced by one for a file and
      left alone for a subdirectory or a dot entry. */
  lemma WalkFromStep(dirPath: Str, listing: Listing, k: nat, i: int)
    requires listing.Listed? && k < |listing.entries|
    ensures TreeFilesBetween(listing, k, k + 1) <= |WalkFrom(dirPath, listing, k, i).tasks|
    ensures WalkFrom(dirPath, listing, k, i).tasks[TreeFilesBetween(listing, k, k + 1)..]
      == WalkFrom(dirPath, listing, k + 1, i + FilesBetween(listing, k, k + 1)).tasks
  {
    var e := listing.entries[k];
    if !IsDotEntry(e.name) && e.kind.Directory? {
      var sub := Walk(Child(dirPath, e.name), e.kind.listing, i).tasks;
      var rest := WalkFrom(dirPath, listing, k + 1, i).tasks;
      TaskPerFile(Child(dirPath, e.name), e.kind.listing, i);
      DropFront(sub, rest, 0);
    } else if !IsDotEntry(e.name) {
      DropFront([Task(Child(dirPath, e.name), i)], WalkFrom(dirPath, listing, k + 1, i + 1).tasks, 0);
    }
  }

  lemma BetweenStep(listing: Listing, k: nat, m: nat)
    requires listing.Listed? && k < m <= |listing.entries|
    ensures TreeFilesBetween(listing, k, m) == TreeFilesBetween(listing, k, k + 1) + TreeFilesBetween(listing, k + 1, m)
    ensures FilesBetween(listing, k, m) == FilesBetween(listing, k, k + 1) + FilesBetween(listing, k + 1, m)
  {
    assert TreeFilesBetween(listing, k + 1, k + 1) == 0;
    assert FilesBetween(listing, k + 1, k + 1) == 0;
  }

  /** Skipping entries `[k, m)`: their tasks come first, and what follows is
      the walk from entry `m` with the counter advanced by the files listed
      directly among them, whatever their subdirectories held. */
  lemma {:induction false} WalkFromSkips(dirPath: Str, listing: Listing, k: nat, m: nat, i: int)
    requires listing.Listed? && k <= m <= |listing.entries|
    ensures TreeFilesBetween(listing, k, m) <= |WalkFrom(dirPath, listing, k, i).tasks|
    ensures WalkFrom(dirPath, listing, k, i).tasks[TreeFilesBetween(listing, k, m)..]
      == WalkFrom(dirPath, listing, m, i + FilesBetween(listing, k, m)).tasks
    decreases m - k
  {
    if k < m {
      var first := TreeFilesBetween(listing, k, k + 1);
      var later := TreeFilesBetween(listing, k + 1, m);
      var advance := FilesBetween(listing, k, k + 1);
      BetweenStep(listing, k, m);
      WalkFromStep(dirPath, listing, k, i);
      WalkFromSkips(dirPath, listing, k + 1, m, i + advance);
      DropTwice(WalkFrom(dirPath, listing, k, i).tasks, first, later);
    }
  }

  lemma DropTwice<T>(s: seq<T>, a: nat, b: nat)
    requires a + b <= |s|
    ensures s[a + b..] == s[a..][b..]
  {
  }

  lemma DropFront<T>(a: seq<T>, b: seq<T>, n: nat)
    requires n <= |b|
    ensures (a + b)[|a| + n..] == b[n..]
  {
  }

  /** Where each entry's work lands in the tasks of a walk started at `i`,
      with subdirectories anywhere in the listing: the tasks of the entries
      before entry `m` come first; a file at `m` gets the index `i` plus the
      number of files listed directly before it; a subdirectory at `m` is
      walked from that same index, its tasks in one block. */
  lemma EntryIndex(dirPath: Str, listing: Listing, m: nat, i: int)
    requires Opens(listing) && m < |listing.entries| && !IsDotEntry(listing.entries[m].name)
    ensures
      var t := Walk(dirPath, listing, i).tasks;
      var e := listing.entries[m];
      var at := TreeFilesBetween(listing, 0, m);
      var j := i + FilesBetween(listing, 0, m);
      && (e.kind.File? ==> at < |t| && t[at] == Task(Child(dirPath, e.name), j))
      && (e.kind.Directory? ==>
            at + FileCount(e.kind.listing) <= |t|
            && t[at..at + FileCount(e.kind.listing)] == Walk(Child(dirPath, e.name), e.kind.listing, j).tasks)
  {
    var e := listing.entries[m];
    var j := i + FilesBetween(listing, 0, m);
    var at := TreeFilesBetween(listing, 0, m);
    var t := Walk(dirPath, listing, i).tasks;
    WalkFromSkips(dirPath, listing, 0, m, i);
    assert t[at..] == WalkFrom(dirPath, listing, m, j).tasks;
    if e.kind.Directory? {
      var sub := Walk(Child(dirPath, e.name), e.kind.listing, j).tasks;
      TaskPerFile(Child(dirPath, e.name), e.kind.listing, j);
      assert t[at..][..|sub|] == sub;
    } else {
      assert t[at..][0] == Task(Child(dirPath, e.name), j);
    }
  }

  /** With `x`, a subdirectory `a` holding `z`, then `y`, walked from 1:
      `x` gets 1, `a\z` gets 2, and `y` also gets 2, since only `x` is
      listed directly before it. */
  lemma IndexAfterSubdirectory()
    ensures
      var tree := Listed([Entry("x", File), Entry("a", Directory(Listed([Entry("z", File)]))), Entry("y", File)]);
      Walk("r", tree, 1).tasks == [Task("r\\x", 1), Task("r\\a\\z", 2), Task("r\\y", 2)]
  {
    var inner := Listed([Entry("z", File)]);
    var tree := Listed([Entry("x", File), Entry("a", Directory(inner)), Entry("y", File)]);
    assert !IsDotEntry("a") && !IsDotEntry("x") && !IsDotEntry("y") && !IsDotEntry("z");
    assert Child("r", "x") == "r\\x" && Child("r", "a") == "r\\a" && Child("r\\a", "z") == "r\\a\\z" && Child("r", "y") == "r\\y";
    assert WalkFrom("r\\a", inner, 1, 3) == Outcome([], []);
    assert Walk("r\\a", inner, 2).tasks == [Task("r\\a\\z", 2)];
    assert WalkFrom("r", tree, 3, 3) == Outcome([], []);
    assert WalkFrom("r", tree, 2, 2).tasks == [Task("r\\y", 2)];
    assert WalkFrom("r", tree, 1, 2).tasks == [Task("r\\a\\z", 2), Task("r\\y", 2)];
  }

  /** Every task lies below the directory walked: its path starts with
      `dirPath + "\\"`. */
  lemma {:induction false} TasksBelowRoot(dirPath: Str, listing: Listing, i: int)
    ensures forall t :: t in Walk(dirPath, listing, i).tasks ==> dirPath + "\\" <= t.path
    decreases listing, 1
  {
    if Opens(listing) {
      TasksBelowRootFrom(dirPath, listing, 0, i);
    }
  }

  lemma {:induction false} TasksBelowRootFrom(dirPath: Str, listing: Listing, k: nat, i: int)
    requires listing.Listed? && k <= |listing.entries|
    ensures forall t :: t in WalkFrom(dirPath, listing, k, i).tasks ==> dirPath + "\\" <= t.path
    decreases listing, 0, |listing.entries| - k
  {
    if k < |listing.entries| {
      var e := listing.entries[k];
      if IsDotEntry(e.name) {
        TasksBelowRootFrom(dirPath, listing, k + 1, i);
      } else if e.kind.Directory? {
        var child := Child(dirPath, e.name);
        TasksBelowRoot(child, e.kind.listing, i);
        forall t | t in Walk(child, e.kind.listing, i).tasks
          ensures dirPath + "\\" <= t.path
        {
          assert child + "\\" <= t.path;
          assert dirPath + "\\" <= child;
        }
        TasksBelowRootFrom(dirPath, listing, k + 1, i);
      } else {
        TasksBelowRootFrom(dirPath, listing, k + 1, i + 1);
      }
    }
  }

  /** A directory that cannot be opened, or whose search finds nothing, adds
      no task and is reported once. */
  lemma UnopenedReported(dirPath: Str, listing: Listing, i: int)
    requires !Opens(listing)
    ensures Walk(dirPath, listing, i) == Outcome([], [dirPath])
  {
  }

  /** Indices are not unique across the tree: with a subdirectory `a`
      holding `x`, followed by a file `y`, both files get number 1. */
  lemma IndicesRepeatAcrossDirectories()
    ensures
      var tree := Listed([Entry("a", Directory(Listed([Entry("x", File)]))), Entry("y", File)]);
      Walk("r", tree, 1).tasks == [Task("r\\a\\x", 1), Task("r\\y", 1)]
  {
    var inner := Listed([Entry("x", File)]);
    var tree := Listed([Entry("a", Directory(inner)), Entry("y", File)]);
    assert !IsDotEntry("a") && !IsDotEntry("x") && !IsDotEntry("y");
    assert Child("r", "a") == "r\\a" && Child("r\\a", "x") == "r\\a\\x" && Child("r", "y") == "r\\y";
    assert WalkFrom("r\\a", inner, 1, 2) == Outcome([], []);
    assert Walk("r\\a", inner, 1).tasks == [Task("r\\a\\x", 1)];
    assert WalkFrom("r", tree, 2, 2) == Outcome([], []);
    assert WalkFrom("r", tree, 1, 1).tasks == [Task("r\\y", 1)];
  }
}

=== FILE: worker.dfy ===
/** `GutmannEncrypt(filepath, countOfFile)` (Herman/Herman.cpp:83-151): one
    file is read whole, overwritten by the 33 passes, written back in place,
    fingerprinted, and renamed to its fingerprint inside its own directory.
    The disk is a map from paths to contents; the worker takes it and gives
    back the disk as it leaves it, with the report it prints. */
module Worker {
  import opened Common
  import Passes
  import Fingerprint
  import Paths

  /** The files on disk, by path. */
  type Files = map<Str, seq<byte>>

  /** What the worker prints: the open error of lines 87-93, or the success
      block of lines 142-145 with the sequence number, the path and the new
      file name. */
  datatype Report = OpenError(path: Str) | Success(index: int, path: Str, newName: Str)

  /** The disk and the report after one worker. */
  datatype Result = Result(files: Files, report: Report)

  /** `rename(from, to)` goes through when the source exists, the target
      lies in the source's own directory (both paths hold a separator and
      their directory parts are spellings of the same directory: a path
      without one is relative to the current directory, and `x/name` cannot
      exist below the file `x`), the target names a file (a path ending in a
      separator names a directory), and no file on disk is already known
      under any spelling of the target (Windows ignores the case of ASCII
      letters and reads `/` as `\`). */
  predicate RenameSucceeds(files: Files, from: Str, to: Str): (b: bool)
    ensures b ==> from in files && to !in files && from != to
  {
    && from in files
    && Paths.HasSeparator(from) && Paths.HasSeparator(to)
    && Paths.SamePath(Paths.Directory(from), Paths.Directory(to))
    && Paths.FileName(to) != []
    && Paths.Normal(to) !in Spellings(files)
  }

  /** The compared spellings of the paths on disk. */
  function Spellings(files: Files): set<Str>
  {
    set p | p in files :: Paths.Normal(p)
  }

  /** The disk after `rename(from, to)`; when it fails nothing moves. */
  function Rename(files: Files, from: Str, to: Str): (r: Files)
    ensures r == files || (from in files && from !in r && to in r && r[to] == files[from])
  {
    if RenameSucceeds(files, from, to) then (files - {from})[to := files[from]] else files
  }

  /** After `rename`, the content sits at the source or at the target path,
      every other file is as before, and no path appears but the target. */
  lemma RenameMoves(files: Files, from: Str, to: Str)
    requires from in files
    ensures
      var r := Rename(files, from, to);
      && (from in r || to in r)
      && (if from in r then r[from] else r[to]) == files[from]
      && (forall p :: p in files && p != from ==> p in r && r[p] == files[p])
      && (forall p :: p in r ==> p in files || p == to)
  {
    if RenameSucceeds(files, from, to) {
      assert Rename(files, from, to) == (files - {from})[to := files[from]];
    }
  }

  /** The name `calculateMD5` gives the file after the write-back. */
  function NewName(files: Files, path: Str, rand: Passes.Draws, provider: Fingerprint.Provider): Str
    requires path in files
  {
    Fingerprint.Fingerprint(path, Some(Passes.Overwritten(files[path], rand)), provider)
  }

  /** Lines 130-145 once the buffer holds `wiped` and the hash gave `name`:
      write back, rename, report. */
  function Finish(files: Files, path: Str, index: int, wiped: seq<byte>, name: Str): Result
  {
    Result(Rename(files[path := wiped], path, Paths.NewFilePath(path, name)), Success(index, path, name))
  }

  /** `fstream(path, in | out | binary)` opens when the file exists and is
      not among `unopenable`, the files that exist but refuse to open for
      reading and writing (read-only, locked by another process, or denied). */
  predicate Opens(files: Files, unopenable: set<Str>, path: Str)
  {
    path in files && path !in unopenable
  }

  /** The whole worker, as a function of the disk it starts from. */
  function Wipe(files: Files, unopenable: set<Str>, path: Str, index: int, rand: Passes.Draws, provider: Fingerprint.Provider): Result
  {
    if !Opens(files, unopenable, path) then Result(files, OpenError(path))
    else Finish(files, path, index, Passes.Overwritten(files[path], rand), NewName(files, path, rand, provider))
  }

  /** `GutmannEncrypt(path, index)`, with `rand` the draws of `rand()` after
      the worker's `srand` and `provider` the CryptoAPI behaviour. */
  method GutmannEncrypt(files: Files, unopenable: set<Str>, path: Str, index: int, rand: Passes.Draws, provider: Fingerprint.Provider)
    returns (after: Files, report: Report)
    ensures Result(after, report) == Wipe(files, unopenable, path, index, rand, provider)
  {
    if !Opens(files, unopenable, path) {
      return files, OpenError(path);
    }
    var content := files[path];
    var buffer := new byte[|content|](i requires 0 <= i < |content| => content[i]);
    assert buffer[..] == content;
    Passes.GutmannPasses(buffer, rand);
    after := files[path := buffer[..]];
    var encryptedFilename := Fingerprint.CalculateMD5(path, Some(after[path]), provider);
    var newFilepath := Paths.NewFilePath(path, encryptedFilename);
    after := Rename(after, path, newFilepath);
    report := Success(index, path, encryptedFilename);
  }

  // ---------------------------------------------------------------------
  // Properties
  // ---------------------------------------------------------------------

  /** A file that does not open, missing or refusing, is left alone and
      reported. */
  lemma OpenFailureChangesNothing(files: Files, unopenable: set<Str>, path: Str, index: int, rand: Passes.Draws, provider: Fingerprint.Provider)
    ensures Wipe(files, unopenable, path, index, rand, provider).report.OpenError?
      <==> path !in files || path in unopenable
    ensures path !in files || path in unopenable ==> Wipe(files, unopenable, path, index, rand, provider).files == files
  {
  }

  /** A file that opens is always reported as a success with its computed
      name, whether that name is empty and whether the rename went through. */
  lemma AlwaysReportsSuccess(files: Files, unopenable: set<Str>, path: Str, index: int, rand: Passes.Draws, provider: Fingerprint.Provider)
    requires Opens(files, unopenable, path)
    ensures Wipe(files, unopenable, path, index, rand, provider).report == Success(index, path, NewName(files, path, rand, provider))
  {
  }

  /** After write-back and rename, the written content sits at the old path
      or at the new one, and every other file is as before. */
  lemma FinishFrame(files: Files, path: Str, index: int, wiped: seq<byte>, name: Str)
    requires path in files
    ensures
      var r := Finish(files, path, index, wiped, name).files;
      var newPath := Paths.NewFilePath(path, name);
      && (path in r || newPath in r)
      && (if path in r then r[path] else r[newPath]) == wiped
      && (forall p :: p in files && p != path ==> p in r && r[p] == files[p])
      && (forall p :: p in r ==> p in files || p == newPath)
  {
    var w := files[path := wiped];
    var newPath := Paths.NewFilePath(path, name);
    RenameMoves(w, path, newPath);
  }

  /** The file keeps its length, and every byte is the fourth random draw
      for its position, wherever the file ends up. */
  lemma WipedContent(files: Files, unopenable: set<Str>, path: Str, index: int, rand: Passes.Draws, provider: Fingerprint.Provider)
    requires Opens(files, unopenable, path)
    ensures
      var r := Wipe(files, unopenable, path, index, rand, provider).files;
      var newPath := Paths.NewFilePath(path, NewName(files, path, rand, provider));
      var at := if path in r then path else newPath;
      && at in r
      && r[at] == Passes.RandomFill(rand, 3 * |files[path]|, |files[path]|)
  {
    var wiped := Passes.Overwritten(files[path], rand);
    var name := NewName(files, path, rand, provider);
    var r := Wipe(files, unopenable, path, index, rand, provider).files;
    assert r == Finish(files, path, index, wiped, name).files;
    FinishFrame(files, path, index, wiped, name);
    var at := if path in r then path else Paths.NewFilePath(path, name);
    assert r[at] == wiped;
    Passes.FinalContentIsLastDraw(files[path], rand);
  }

  /** No other file is touched: apart from the wiped file and its new name,
      the disk is as before. */
  lemma OthersUntouched(files: Files, unopenable: set<Str>, path: Str, index: int, rand: Passes.Draws, provider: Fingerprint.Provider)
    requires Opens(files, unopenable, path)
    ensures
      var r := Wipe(files, unopenable, path, index, rand, provider).files;
      var newPath := Paths.NewFilePath(path, NewName(files, path, rand, provider));
      && (forall p :: p in files && p != path ==> p in r && r[p] == files[p])
      && (forall p :: p in r ==> p in files || p == newPath)
  {
    FinishFrame(files, path, index, Passes.Overwritten(files[path], rand), NewName(files, path, rand, provider));
  }

  /** When the rename goes through, the file moves within its directory to
      a name that is the 32-digit fingerprint of its original path and its
      final content, and the old path is gone. */
  lemma RenamedToFingerprint(files: Files, unopenable: set<Str>, path: Str, index: int, rand: Passes.Draws, provider: Fingerprint.Provider)
    requires Opens(files, unopenable, path)
    requires
      var name := NewName(files, path, rand, provider);
      RenameSucceeds(files[path := Passes.Overwritten(files[path], rand)], path, Paths.NewFilePath(path, name))
    ensures
      var name := NewName(files, path, rand, provider);
      var newPath := Paths.NewFilePath(path, name);
      var r := Wipe(files, unopenable, path, index, rand, provider).files;
      && path !in r && newPath in r
      && name == Fingerprint.Fingerprint(path, Some(r[newPath]), provider)
      && |name| == 2 * Fingerprint.DigestLength
      && Paths.FileName(newPath) == name
      && Paths.Directory(newPath) == Paths.Directory(path)
  {
    var content := Passes.Overwritten(files[path], rand);
    var name := NewName(files, path, rand, provider);
    Fingerprint.FingerprintShape(path, Some(content), provider);
    if name == [] {
      Paths.EmptyFingerprint(path);
      assert false;
    }
    assert !Paths.HasSeparator(name);
    Paths.RenameStaysInDirectory(path, name);
  }

  /** When a file on disk already answers to some spelling of the target
      name, the rename fails: the file stays at its path with its content
      already destroyed, nothing else changes, and the worker still reports
      success. */
  lemma CollisionKeepsWipedFile(files: Files, unopenable: set<Str>, path: Str, other: Str, index: int, rand: Passes.Draws, provider: Fingerprint.Provider)
    requires Opens(files, unopenable, path)
    requires other in files
    requires Paths.SamePath(other, Paths.NewFilePath(path, NewName(files, path, rand, provider)))
    ensures
      var r := Wipe(files, unopenable, path, index, rand, provider);
      && r.files == files[path := Passes.Overwritten(files[path], rand)]
      && r.report.Success?
  {
  }

  /** The walk spells a path `dir\name` and the new path is `dir/name`:
      a file already holding the fingerprint as its name, under the walk's
      spelling, blocks the rename. */
  lemma WalkSpellingCollides(files: Files, unopenable: set<Str>, path: Str, index: int, rand: Passes.Draws, provider: Fingerprint.Provider)
    requires Opens(files, unopenable, path)
    requires Paths.Directory(path) + "\\" + NewName(files, path, rand, provider) in files
    ensures
      var r := Wipe(files, unopenable, path, index, rand, provider);
      && r.files == files[path := Passes.Overwritten(files[path], rand)]
      && r.report.Success?
  {
    var name := NewName(files, path, rand, provider);
    Paths.SeparatorSpellingsAgree(Paths.Directory(path), name);
    CollisionKeepsWipedFile(files, unopenable, path, Paths.Directory(path) + "\\" + name, index, rand, provider);
  }

  /** A path without a separator (a file in the current directory) is never
      renamed: the target `path/<fingerprint>` would lie below the file
      itself. The content is still destroyed and success still reported. */
  lemma BarePathStays(files: Files, unopenable: set<Str>, path: Str, index: int, rand: Passes.Draws, provider: Fingerprint.Provider)
    requires Opens(files, unopenable, path)
    requires !Paths.HasSeparator(path)
    ensures
      var r := Wipe(files, unopenable, path, index, rand, provider);
      && r.files == files[path := Passes.Overwritten(files[path], rand)]
      && r.report.Success?
  {
  }

  /** When `calculateMD5` gives up and returns `""`, the new path is the
      directory part followed by `/`, which names no file: the rename fails,
      so the file stays at its path with its content already destroyed, and
      the success block still prints an empty name. */
  lemma HashFailureKeepsWipedFile(files: Files, unopenable: set<Str>, path: Str, index: int, rand: Passes.Draws, provider: Fingerprint.Provider)
    requires Opens(files, unopenable, path)
    requires Fingerprint.Fails(Some(Passes.Overwritten(files[path], rand)), provider)
    ensures
      var r := Wipe(files, unopenable, path, index, rand, provider);
      && r.files == files[path := Passes.Overwritten(files[path], rand)]
      && r.report == Success(index, path, [])
  {
    var name := NewName(files, path, rand, provider);
    assert name == [];
    var to := Paths.NewFilePath(path, name);
    assert Paths.FindLastSeparator(to) == Some(|Paths.Directory(path)|);
    assert Paths.FileName(to) == [];
  }
}
